=== FILE: README.md ===
# Fibonacci call tree — a Dafny model

The repository draws the call tree of the naive recursive Fibonacci function
as an animated SVG. It has three near-identical React components. Each one
holds the same builder, `generateFibTree`, and each one derives its node keys,
link keys, reveal delays and node fills from the `order` stamp that the
builder gives every node. This project models that builder and those derived
values, and proves what they promise.

- `fib_node.dfy` (`FibNode`): the `FibNode` record as an immutable
  `Node(value, children, order)`. Also the views of a tree that the drawing
  code reads: every node in pre-order (`Nodes`), the stamps in that order
  (`Orders`), and every parent-to-child link (`Links`).
- `fib_gen.dfy` (`FibGen`): `generate` as `Gen(n, c)`. The closure's mutable
  `order` counter becomes an accumulator: `c` is the counter when the call
  starts, and the call returns the node together with the counter it leaves
  behind. `GenerateFibTree(n)` is `Gen(n, 0).0`, the node half of the pair, so every build starts a fresh
  counter at 0. `CallCount(n)` is the call-count recurrence of the naive
  recursion.
- `fib_count.dfy` (`FibCount`): what the tree counts. For `n >= 0` there are
  `Fib(n + 1)` leaves, and their values add up to `Fib(n)`; a negative `n`
  gives a single leaf valued `n`.
- `decimal.dfy` (`Decimal`): how a template literal `${x}` renders an
  integer below 10^21 in magnitude (from there JavaScript switches to
  exponent notation, which stamps never reach), and why the rendering can be
  read back.
- `render.dfy` (`Render`): the keys `node-${order}`, `${src}-${tgt}` and
  `link-${src}-${tgt}`, the reveal delays, and the teal/purple fill.

The three copies of `generateFibTree` share the same `generate` body:
`src/fibonacci-tree.tsx:23-29`, `src/fibonacci-tree2.tsx:33-39` and
`src/fibonacci-tree3.tsx:29-35`. Two of the copies are wrapped in
`useCallback` and the third is a plain arrow function, which changes nothing
about the tree they return. The model defines the builder once. In
every copy a node takes the counter's value (`order++`) before either child
is built, and the left child is built in full before the right one.

Delays are in whole milliseconds. The second component writes `order * 0.5`
seconds, and the third writes `order * 500` milliseconds. These are the same
delay, so no fractions are needed. In the third component the group, the
circle and the label all wait `order * 500` ms
(`src/fibonacci-tree3.tsx:87,101,107`). In the second component they all wait
`order * 0.5` s (`src/fibonacci-tree2.tsx:98,111,122`). So one function,
`NodeDelayMs`, stands for all of them.

`generate` returns a single leaf for every `n <= 1`, negative `n` included
(`src/fibonacci-tree.tsx:24`), so `Gen` accepts every integer.

## Model

| member | source | states |
|---|---|---|
| FibGen.CallCount | src/fibonacci-tree2.tsx:33-38 | The number of calls `generate(n)` makes, base cases included: 1 for `n <= 1`, otherwise 1 plus the calls for `n-1` and `n-2`; it is at least 1. |
| FibGen.Gen | src/fibonacci-tree2.tsx:33-39 | The node returned has value `n` and is stamped with the counter's value at the call. The counter is left advanced by exactly the number of calls the naive recursion makes on `n`. |
| FibGen.GenOrders | src/fibonacci-tree2.tsx:32-38 | The stamps of a subtree built from counter `c`, read in pre-order, are exactly `c, c+1, ..., c+size-1`: contiguous, with no repeats, and in construction order. |
| FibGen.BranchOrders | src/fibonacci-tree2.tsx:35-37 | Parent, then a full left subtree, then a full right subtree give one contiguous pre-order stamp range. |
| FibGen.GenerateFibTree | src/fibonacci-tree.tsx:21-31 | A fresh build has root stamp 0. Its root is a leaf exactly when `n <= 1`. Its stamps, read in pre-order, are `0 .. CallCount(n)-1`. |
| FibGen.GenStep | src/fibonacci-tree3.tsx:30-33 | The one-step unfolding of `Gen`: any `n <= 1`, negatives included, gives a childless node with value `n`, stamped with the incoming counter; the counter moves on by one. Otherwise there are exactly two children, the builds for `n-1` and then `n-2`. |
| FibGen.TreeSize | src/fibonacci-tree2.tsx:33-38 | The node count is `CallCount(n)`: 1 for `n <= 1`, otherwise 1 plus the sizes of the two subtrees. |
| FibGen.SizeExamples | src/fibonacci-tree2.tsx:31-40 | A build for 4 has 9 nodes and a build for 5 has 15. |
| FibGen.SubtreesAreGenerated | src/fibonacci-tree3.tsx:29-35 | Every subtree is itself the tree `generate` builds for that subtree's value, started at that subtree's stamp. |
| FibGen.StrictlyBinary | src/fibonacci-tree.tsx:24-27 | Every node has 0 children exactly when its value is at most 1, and 2 children otherwise, never 1. The two children have values `v-1` and then `v-2`. |
| FibGen.BranchStampsOrdered | src/fibonacci-tree2.tsx:35-37 | At a two-child node, both subtrees are stamped after the parent, and every stamp on the left is below every stamp on the right. |
| FibGen.GeneratedNodeOrdering | src/fibonacci-tree3.tsx:31-33 | At any generated node, each child is stamped after the parent, and the left subtree's stamps are all below the right subtree's stamps. |
| FibGen.ConstructionOrder | src/fibonacci-tree.tsx:25-27 | The same holds at every node of a built tree: each child is stamped after its parent, and left subtree stamps are below right subtree stamps. |
| FibGen.OrdersExactRange | src/fibonacci-tree3.tsx:28-36 | The set of stamps is exactly `{0, ..., CallCount(n)-1}`, and no two nodes share a stamp. |
| FibGen.ValuesInRange | src/fibonacci-tree3.tsx:30-33 | For `n >= 0`, every value lies in `[0, n]`, and each child's value is its parent's value minus 1 or minus 2. |
| FibGen.GenShift | src/fibonacci-tree2.tsx:32-38 | Starting the counter `d` further along builds the same shape with every stamp moved by `d`, and leaves the counter `d` further along. |
| FibGen.ChildrenAreSmallerTrees | src/fibonacci-tree3.tsx:31-33 | For `n >= 2`, the children equal the standalone builds for `n-1` and `n-2`, shifted by 1 and by `1 + CallCount(n-1)`. |
| FibGen.FreshCounter | src/fibonacci-tree2.tsx:31-32 | Because the counter starts at 0 on every call, the result depends on `n` only. A counter left over at `c` would shift every stamp by `c`, and would agree with the fresh build only when `c = 0`. |
| FibGen.LinkTargetStamps | src/fibonacci-tree3.tsx:52-53 | In a tree stamped `0..k-1` in pre-order, there are `k-1` links, and in the model's pre-order listing their targets carry stamps `1..k-1`; so the targets are distinct and cover every non-root stamp. |
| FibGen.BuiltLinkTargets | src/fibonacci-tree.tsx:40 | A built tree has `CallCount(n)-1` links, one per non-root node, and their targets carry stamps `1 .. CallCount(n)-1`. |
| FibGen.BuiltLinksOrdered | src/fibonacci-tree2.tsx:52 | Every link of a built tree goes from a node of the tree to one of its own children, and from a lower stamp to a higher one. |
| FibNode.Nodes | src/fibonacci-tree.tsx:41 | Stands for d3's `descendants()` (also `src/fibonacci-tree2.tsx:51`, `src/fibonacci-tree3.tsx:74`): every node of the tree, listed in pre-order; the list is never empty and starts at the root. |
| FibNode.Links | src/fibonacci-tree.tsx:40 | Stands for d3's `links()` (also `src/fibonacci-tree2.tsx:52`, `src/fibonacci-tree3.tsx:53`): one `{source, target}` pair per parent-child edge, listed in pre-order rather than d3's breadth-first order; there is one link fewer than there are nodes. |
| FibNode.NodesOfBinary | src/fibonacci-tree2.tsx:36-37 | A two-child node lists itself, then its left subtree, then its right subtree. |
| FibNode.LinkTargetsAreNonRootNodes | src/fibonacci-tree3.tsx:53 | For any tree, in the model's pre-order listing of links, the link targets are exactly the non-root nodes in pre-order: one link per non-root node. |
| FibNode.LinksAreParentChildEdges | src/fibonacci-tree.tsx:40 | For any tree, every link leads from a node of the tree to one of that node's own children. |
| FibCount.CallCountIsFib | src/fibonacci-tree2.tsx:33-38 | For `n >= 0`, the number of calls is `2 * Fib(n+1) - 1`. |
| FibCount.LeafCount | src/fibonacci-tree2.tsx:34 | For `n >= 0`, the tree has `Fib(n+1)` leaves, one per base-case call. |
| FibCount.LeavesSumToFib | src/fibonacci-tree3.tsx:30-33 | For `n >= 0`, the leaf values add up to `Fib(n)`, the value the naive recursion computes. |
| Decimal.Show | src/fibonacci-tree.tsx:68 | Stands for a `${…}` template literal applied to an integer stamp (also `src/fibonacci-tree.tsx:64`, `src/fibonacci-tree2.tsx:74,94`): for magnitudes below 10^21, a `-` exactly when the integer is negative, then only decimal digits, at least one, with no leading zero unless the digits are the single `0`; `Parse` reads it back as the integer. Together these fix the one canonical decimal string. |
| Decimal.ParseShowNat | src/fibonacci-tree2.tsx:94 | Reading back the decimal digits of a rendered stamp gives the stamp. |
| Decimal.ShowInjective | src/fibonacci-tree.tsx:68 | Two integers render to the same text exactly when they are equal. |
| Decimal.SplitAtDash | src/fibonacci-tree.tsx:64 | `x-y` determines `x` and `y` when `x` contains no dash. |
| Decimal.JoinInjective | src/fibonacci-tree2.tsx:74 | `${a}-${b}` determines both `a` and `b`, whatever their signs. |
| Render.NodeKey | src/fibonacci-tree2.tsx:94 | The node key `node-${order}` (also `src/fibonacci-tree.tsx:68`): the `node-` prefix, and after it a rendering that reads back as the node's stamp. |
| Render.PathKey | src/fibonacci-tree.tsx:64 | The link key `${source.order}-${target.order}` of the first component: the part before the separating `-` reads back as the source's stamp, and the part after it as the target's. |
| Render.MotionPathKey | src/fibonacci-tree2.tsx:74 | The link key `link-${source.order}-${target.order}` of the second component: the first component's key behind a `link-` prefix, so that after the prefix the part up to the separating `-` reads back as the source's stamp and the rest as the target's. |
| Render.LinkDelayMs | src/fibonacci-tree3.tsx:64 | A link's reveal delay, `max(source.order, target.order) * 500` ms: the later of its two end nodes' delays, so at least each of them and equal to one; `src/fibonacci-tree2.tsx:84-86` writes the same delay in seconds. |
| Render.NodeKeyInjective | src/fibonacci-tree2.tsx:94 | Two nodes get the same `node-${order}` key exactly when they have the same stamp. |
| Render.PathKeyInjective | src/fibonacci-tree.tsx:64 | Two links get the same `${src}-${tgt}` key, or the same `link-${src}-${tgt}` key, exactly when their end stamps agree. |
| Render.StampIsConstructionIndex | src/fibonacci-tree.tsx:22-28 | In a built tree, the node built `i`-th is stamped `i`. |
| Render.NodeKeysUnique | src/fibonacci-tree.tsx:68 | In a built tree, no two nodes share a key. |
| Render.NodeDelaysIncrease | src/fibonacci-tree3.tsx:87 | With `NodeDelayMs` standing for the node reveal delay `order * 500` ms (the same expression at `src/fibonacci-tree3.tsx:101,107`, and `order * 0.5` s at `src/fibonacci-tree2.tsx:98,111,122`): in a built tree the node built `i`-th waits `500*i` ms, so node delays grow strictly in construction order. |
| Render.LinkDelayIsTargetDelay | src/fibonacci-tree2.tsx:84-86 | In a built tree, each link's delay `max(src, tgt) * 500` equals its target node's delay. |
| Render.LinkKeysUnique | src/fibonacci-tree2.tsx:74 | In a built tree, no two links share a key in either form, because no two links share a target. |
| Render.FillMarksInternalNodes | src/fibonacci-tree.tsx:73-77 | With `NodeFill` standing for the fill test on `children` (also `src/fibonacci-tree3.tsx:84`, `src/fibonacci-tree2.tsx:104-108`): in a built tree, a node is drawn teal exactly when its value is at least 2, and purple exactly when its value is at most 1. |

## Left out

- React state, hooks and effect dependency lists are lifecycle, not logic. This includes `src/fibonacci-tree.tsx:43`, which never rebuilds when `n` changes.
- The d3 `hierarchy`/`tree` layout, coordinates, and the `curveBumpY` link paths are left out. They are library algorithms outside this repository. The model takes three things from d3 as given:
  - `links()` gives one parent-to-child link per non-root node (`Links`). d3 builds that array breadth-first; the model lists links in pre-order and does not model d3's order. For `n = 3` the program's link targets carry stamps 1, 4, 2, 3 where the model's carry 1, 2, 3, 4. Only order-free facts carry over to the program's array: one link per non-root node, distinct targets, unique keys, and each link's delay equal to its target's delay.
  - `descendants()` lists every node. The model lists them in pre-order; d3's own listing order is not modelled, and no proved property depends on it.
  - A hierarchy node has `children` only when its data has a non-empty `children` list. So the fill tests on `d.children` (`src/fibonacci-tree3.tsx:84`) and on `children.length > 0` (`src/fibonacci-tree.tsx:74`) agree with `NodeFill`.
- Animation is left out: framer-motion and d3 transitions, easing, `attrTween`, `getTotalLength`, and the durations 0.3 s, 0.5 s, 300 ms and 500 ms. Only the delays are modelled.
- Resize handling and the dimension arithmetic (`Math.max(600, width * 0.75)`) are left out. They are browser I/O and floating point.
- SVG markup, colour strings other than the two fills, and the `console.log` debug line are left out.
- `n` is modelled as an integer. A fractional JavaScript number would recurse through fractional values to a leaf below 1; that case is not modelled. `NaN` and `+Infinity` also pass the `number` type, but for them `n <= 1` (`src/fibonacci-tree.tsx:24`) never holds, so `generate` recurses until the stack overflows with a `RangeError`; the integer domain leaves them out. Nothing guards a large `n` either: the build takes time and memory exponential in `n` (`CallCount(n)` nodes), and the model states the count but not the cost.
- `order` is modelled as an unbounded integer. In JavaScript it is a double, which is exact up to 2^53, far beyond any tree that can be built.

=== FILE: decimal.dfy ===
/** How a template literal such as `${order}` renders an integer below
    10^21 in magnitude: its decimal digits without leading zeros, after a
    `-` when it is negative. (From 10^21 on JavaScript switches to exponent
    notation; stamps never come near that.)
    Reading the digits back gives the number again, so distinct numbers
    render to distinct strings, and two numbers joined by `-` can be split
    apart again. */
module Decimal {

  predicate IsDigit(ch: char)
  {
    '0' <= ch <= '9'
  }

  function DigitChar(d: nat): (ch: char)
    requires d < 10
    ensures IsDigit(ch)
  {
    ('0' as int + d) as char
  }

  function DigitValue(ch: char): nat
  {
    if IsDigit(ch) then ch as int - '0' as int else 0
  }

  /** The decimal digits of `n`, most significant first. */
  function ShowNat(n: nat): (s: string)
    ensures |s| >= 1
    ensures forall i :: 0 <= i < |s| ==> IsDigit(s[i])
    ensures s[0] == '0' <==> n == 0
  {
    if n < 10 then [DigitChar(n)] else ShowNat(n / 10) + [DigitChar(n % 10)]
  }

  /** The number a string of decimal digits denotes. */
  function ParseNat(s: string): nat
  {
    if |s| == 0 then 0 else 10 * ParseNat(s[..|s| - 1]) + DigitValue(s[|s| - 1])
  }

  /** The integer a rendering denotes: a leading `-` negates the digits
      after it. */
  function Parse(s: string): int
  {
    if |s| >= 1 && s[0] == '-' then -(ParseNat(s[1..]) as int) else ParseNat(s)
  }

  /** An integer as a template literal renders it, for magnitudes below
      10^21. The rendering starts with `-` exactly when the integer is
      negative; after that come only decimal digits, at least one, with no
      leading zero unless the digits are the single `0`; and it reads back
      as the integer. */
  function Show(i: int): (s: string)
    ensures |s| >= 1
    ensures s[0] == '-' <==> i < 0
    ensures var k := if i < 0 then 1 else 0;
              && k < |s|
              && (forall j :: k <= j < |s| ==> IsDigit(s[j]))
              && (s[k] == '0' ==> |s| == k + 1)
    ensures Parse(s) == i
  {
    if i < 0 then
      var s := "-" + ShowNat(-i);
      ParseShowNat(-i);
      assert s[1..] == ShowNat(-i);
      s
    else
      ParseShowNat(i);
      ShowNat(i)
  }

  /** Reading back the digits of `n` gives `n`. */
  lemma {:induction false} ParseShowNat(n: nat)
    ensures ParseNat(ShowNat(n)) == n
    decreases n
  {
    var s := ShowNat(n);
    if n < 10 {
      assert s[..0] == [];
    } else {
      ParseShowNat(n / 10);
      assert s[..|s| - 1] == ShowNat(n / 10);
    }
  }

  /** Distinct naturals have distinct digits. */
  lemma ShowNatInjective(a: nat, b: nat)
    ensures ShowNat(a) == ShowNat(b) <==> a == b
  {
    ParseShowNat(a);
    ParseShowNat(b);
  }

  /** Distinct integers render to distinct strings. */
  lemma ShowInjective(a: int, b: int)
    ensures Show(a) == Show(b) <==> a == b
  {
    if a < 0 && b < 0 {
      assert Show(a)[1..] == ShowNat(-a);
      assert Show(b)[1..] == ShowNat(-b);
      ShowNatInjective(-a, -b);
    } else if a >= 0 && b >= 0 {
      ShowNatInjective(a, b);
    } else {
      assert Show(a)[0] != Show(b)[0];
    }
  }

  predicate DashFree(s: string)
  {
    forall i :: 0 <= i < |s| ==> s[i] != '-'
  }

  /** Joining two strings with `-` can be undone when the first one has no
      `-` of its own: the first `-` is the separator. */
  lemma SplitAtDash(x: string, y: string, x': string, y': string)
    requires DashFree(x) && DashFree(x')
    ensures x + "-" + y == x' + "-" + y' <==> x == x' && y == y'
  {
    var s, s' := x + "-" + y, x' + "-" + y';
    if |x| < |x'| {
      assert s[|x|] == '-' && s'[|x|] == x'[|x|];
    } else if |x'| < |x| {
      assert s'[|x'|] == '-' && s[|x'|] == x[|x'|];
    } else if s == s' {
      assert x == s[..|x|] == x';
      assert y == s[|x| + 1..] == y';
    }
  }

  /** Two integers joined by `-`, as in `${a}-${b}`, determine both
      integers, whatever their signs. */
  lemma JoinInjective(a: int, b: int, a': int, b': int)
    ensures Show(a) + "-" + Show(b) == Show(a') + "-" + Show(b') <==> a == a' && b == b'
  {
    var s, s' := Show(a) + "-" + Show(b), Show(a') + "-" + Show(b');
    ShowInjective(a, a');
    ShowInjective(b, b');
    if a < 0 && a' < 0 {
      var x, x' := ShowNat(-a) + "-" + Show(b), ShowNat(-a') + "-" + Show(b');
      NegativeJoin(a, b);
      NegativeJoin(a', b');
      SplitAtDash(ShowNat(-a), Show(b), ShowNat(-a'), Show(b'));
      assert s[1..] == x && s'[1..] == x';
    } else if a >= 0 && a' >= 0 {
      SplitAtDash(Show(a), Show(b), Show(a'), Show(b'));
    } else {
      assert s[0] == Show(a)[0] && s'[0] == Show(a')[0];
    }
  }

  lemma NegativeJoin(a: int, b: int)
    requires a < 0
    ensures Show(a) + "-" + Show(b) == "-" + (ShowNat(-a) + "-" + Show(b))
  {
  }
}

=== FILE: fib_count.dfy ===
/** What the built tree counts: it is the call tree of the naive Fibonacci
    recursion, so its leaves are the base-case calls, whose values add up to
    the Fibonacci number itself, and its size is fixed by `n` alone. */
module FibCount {
  import opened FibNode
  import opened FibGen

  /** The Fibonacci numbers, with `Fib(0) == 0` and `Fib(1) == 1`. */
  function Fib(n: nat): nat
  {
    if n <= 1 then n else Fib(n - 1) + Fib(n - 2)
  }

  /** The values of the childless nodes of `ns`, in order. */
  function LeafValues(ns: seq<Node>): seq<int>
  {
    if |ns| == 0 then []
    else (if |ns[0].children| == 0 then [ns[0].value] else []) + LeafValues(ns[1..])
  }

  function Sum(xs: seq<int>): int
  {
    if |xs| == 0 then 0 else xs[0] + Sum(xs[1..])
  }

  lemma LeafValuesConcat(a: seq<Node>, b: seq<Node>)
    ensures LeafValues(a + b) == LeafValues(a) + LeafValues(b)
  {
    if |a| > 0 {
      assert (a + b)[0] == a[0];
      assert (a + b)[1..] == a[1..] + b;
      LeafValuesConcat(a[1..], b);
    } else {
      assert a + b == b;
    }
  }

  lemma SumConcat(a: seq<int>, b: seq<int>)
    ensures Sum(a + b) == Sum(a) + Sum(b)
  {
    if |a| > 0 {
      assert (a + b)[0] == a[0];
      assert (a + b)[1..] == a[1..] + b;
      SumConcat(a[1..], b);
    } else {
      assert a + b == b;
    }
  }

  /** The call count of the naive recursion on a non-negative `n` is
      `2 * Fib(n + 1) - 1`: 1, 1, 3, 5, 9, 15, ... */
  lemma {:induction false} CallCountIsFib(n: int)
    requires n >= 0
    ensures CallCount(n) == 2 * Fib(n + 1) - 1
    decreases n
  {
    if n >= 2 {
      CallCountIsFib(n - 1);
      CallCountIsFib(n - 2);
    }
  }

  /** The leaves of a two-child node are those of its left subtree, then
      those of its right subtree. */
  lemma BranchLeaves(t: Node)
    requires |t.children| == 2
    ensures LeafValues(Nodes(t)) == LeafValues(Nodes(t.children[0])) + LeafValues(Nodes(t.children[1]))
  {
    var left, right := t.children[0], t.children[1];
    NodesOfBinary(t);
    LeafValuesConcat([t] + Nodes(left), Nodes(right));
    LeafValuesConcat([t], Nodes(left));
    assert LeafValues([t]) == [];
  }

  /** For a non-negative `n` the built tree has `Fib(n + 1)` leaves: one
      per base-case call of the naive recursion. */
  lemma {:induction false} LeafCount(n: int, c: int)
    requires n >= 0
    ensures |LeafValues(Nodes(Gen(n, c).0))| == Fib(n + 1)
    decreases n
  {
    var t := Gen(n, c).0;
    GenStep(n, c);
    if n <= 1 {
      assert Nodes(t) == [t];
      assert LeafValues([t]) == [n];
    } else {
      LeafCount(n - 1, c + 1);
      LeafCount(n - 2, c + 1 + CallCount(n - 1));
      BranchLeaves(t);
    }
  }

  /** For a non-negative `n` the values on the leaves of the built tree,
      the base cases the naive recursion returns, add up to `Fib(n)`. */
  lemma {:induction false} LeavesSumToFib(n: int, c: int)
    requires n >= 0
    ensures Sum(LeafValues(Nodes(Gen(n, c).0))) == Fib(n)
    decreases n
  {
    var t := Gen(n, c).0;
    GenStep(n, c);
    if n <= 1 {
      assert Nodes(t) == [t];
      assert LeafValues([t]) == [n];
    } else {
      LeavesSumToFib(n - 1, c + 1);
      LeavesSumToFib(n - 2, c + 1 + CallCount(n - 1));
      BranchLeaves(t);
      SumConcat(LeafValues(Nodes(t.children[0])), LeafValues(Nodes(t.children[1])));
    }
  }
}

=== FILE: fib_gen.dfy ===
/** `generateFibTree` and its inner `generate`, with the closure's mutable
    `order` counter threaded through as an explicit accumulator: `Gen(n, c)`
    is the call `generate(n)` made while the counter reads `c`, and it
    returns the node together with the counter it leaves behind. */
module FibGen {
  import opened FibNode

  /** The number of calls the naive recursion makes on argument `n`,
      counting every call, base cases included. */
  function CallCount(n: int): (r: nat)
    decreases if n <= 1 then 0 else n
    ensures r >= 1
  {
    if n <= 1 then 1 else 1 + CallCount(n - 1) + CallCount(n - 2)
  }

  /** The `k` consecutive integers starting at `c`. */
  function Iota(c: int, k: nat): (r: seq<int>)
    ensures |r| == k
    ensures forall i :: 0 <= i < k ==> r[i] == c + i
  {
    seq(k, i requires 0 <= i < k => c + i)
  }

  lemma IotaSplit(c: int, k1: nat, k2: nat)
    ensures [c] + Iota(c + 1, k1) + Iota(c + 1 + k1, k2) == Iota(c, 1 + k1 + k2)
  {
  }

  /** `generate(n)` run while the counter reads `c`: the node it returns and
      the counter it leaves. The node takes the counter's value before any
      child is built; the left child is then built in full before the right
      one starts, and the counter moves on by one per call made. */
  function Gen(n: int, c: int): (r: (Node, int))
    decreases if n <= 1 then 0 else n
    ensures r.0.value == n && r.0.order == c
    ensures r.1 == c + CallCount(n)
  {
    if n <= 1 then
      (Node(n, [], c), c + 1)
    else
      var left := Gen(n - 1, c + 1);
      var right := Gen(n - 2, left.1);
      (Node(n, [left.0, right.0], c), right.1)
  }

  /** The stamps of a subtree built while the counter reads `c`, read in
      pre-order, are exactly `c, c + 1, ..., c + CallCount(n) - 1`: contiguous,
      without repeats, and in construction order. */
  lemma {:induction false} GenOrders(n: int, c: int)
    ensures Orders(Gen(n, c).0) == Iota(c, CallCount(n))
    decreases if n <= 1 then 0 else n
  {
    var t := Gen(n, c).0;
    if n <= 1 {
      assert Nodes(t) == [t];
    } else {
      var k1 := CallCount(n - 1);
      GenOrders(n - 1, c + 1);
      GenOrders(n - 2, c + 1 + k1);
      BranchOrders(t, k1, CallCount(n - 2));
    }
  }

  /** A two-child node whose left subtree is stamped with the next `k1`
      integers after its own stamp and whose right subtree with the `k2`
      after those is stamped with the `1 + k1 + k2` integers from its own
      stamp on, in pre-order. */
  lemma BranchOrders(t: Node, k1: nat, k2: nat)
    requires |t.children| == 2
    requires Orders(t.children[0]) == Iota(t.order + 1, k1)
    requires Orders(t.children[1]) == Iota(t.order + 1 + k1, k2)
    ensures Orders(t) == Iota(t.order, 1 + k1 + k2)
  {
    var left, right := t.children[0], t.children[1];
    NodesOfBinary(t);
    OrdersOfConcat([t] + Nodes(left), Nodes(right));
    OrdersOfConcat([t], Nodes(left));
    IotaSplit(t.order, k1, k2);
  }

  /** `generateFibTree(n)`: a fresh counter at 0 for every call. The root is
      stamped 0, it is a leaf exactly when `n <= 1`, and the stamps read in
      pre-order are `0, 1, ..., CallCount(n) - 1`. */
  function GenerateFibTree(n: int): (r: Node)
    ensures r.value == n && r.order == 0
    ensures |r.children| == 0 <==> n <= 1
    ensures Orders(r) == Iota(0, CallCount(n))
  {
    GenOrders(n, 0);
    Gen(n, 0).0
  }

  /** The one-step unfolding of `generate`: any `n <= 1`,
      negative ones included, gives a childless node with value `n` stamped
      `c`; any other `n` gives exactly two children, the calls on `n - 1`
      and then `n - 2`, stamped right after the parent and right after the
      whole left subtree respectively. */
  lemma GenStep(n: int, c: int)
    ensures n <= 1 ==> Gen(n, c) == (Node(n, [], c), c + 1)
    ensures n >= 2 ==>
              Gen(n, c).0.children
              == [Gen(n - 1, c + 1).0, Gen(n - 2, c + 1 + CallCount(n - 1)).0]
  {
  }

  /** The size of the built tree is the call count of the naive recursion:
      one node for `n <= 1`, and the node plus both subtrees otherwise; for
      example 9 nodes for `n = 4` and 15 for `n = 5`. */
  lemma {:induction false} TreeSize(n: int, c: int)
    ensures |Nodes(Gen(n, c).0)| == CallCount(n)
    ensures n <= 1 ==> |Nodes(Gen(n, c).0)| == 1
    ensures n >= 2 ==>
              |Nodes(Gen(n, c).0)|
              == 1 + |Nodes(Gen(n, c).0.children[0])| + |Nodes(Gen(n, c).0.children[1])|
  {
    var t := Gen(n, c).0;
    GenOrders(n, c);
    assert |Orders(t)| == |Nodes(t)|;
    if n >= 2 {
      NodesOfBinary(t);
    }
  }

  lemma SizeExamples()
    ensures |Nodes(GenerateFibTree(4))| == 9
    ensures |Nodes(GenerateFibTree(5))| == 15
  {
    TreeSize(4, 0);
    TreeSize(5, 0);
  }

  /** Every subtree of a built tree is itself the tree `generate` builds for
      that subtree's value, started at that subtree's stamp. */
  lemma {:induction false} SubtreesAreGenerated(n: int, c: int)
    ensures forall m :: m in Nodes(Gen(n, c).0) ==> m == Gen(m.value, m.order).0
    decreases if n <= 1 then 0 else n
  {
    var t := Gen(n, c).0;
    if n >= 2 {
      var c1 := Gen(n - 1, c + 1).1;
      SubtreesAreGenerated(n - 1, c + 1);
      SubtreesAreGenerated(n - 2, c1);
      NodesOfBinary(t);
    }
  }

  /** The built tree is strictly binary: every node has no children when
      its value is at most 1 and exactly two otherwise, with values one and
      two below its own, in that order. No node has exactly one child. */
  lemma StrictlyBinary(n: int)
    ensures forall m :: m in Nodes(GenerateFibTree(n)) ==>
              && (|m.children| == 0 <==> m.value <= 1)
              && (|m.children| == 0 || |m.children| == 2)
              && (|m.children| == 2 ==>
                    m.children[0].value == m.value - 1 && m.children[1].value == m.value - 2)
  {
    SubtreesAreGenerated(n, 0);
    forall m | m in Nodes(GenerateFibTree(n))
      ensures |m.children| == 0 <==> m.value <= 1
      ensures |m.children| == 0 || |m.children| == 2
      ensures |m.children| == 2 ==>
                m.children[0].value == m.value - 1 && m.children[1].value == m.value - 2
    {
      GenStep(m.value, m.order);
    }
  }

  /** At a two-child node built by `generate`, the parent's stamp is below
      every stamp of both subtrees, and every stamp on the left is below
      every stamp on the right. */
  lemma BranchStampsOrdered(v: int, o: int)
    requires v >= 2
    ensures forall x :: x in Orders(Gen(v, o).0.children[0]) ==> o < x
    ensures forall y :: y in Orders(Gen(v, o).0.children[1]) ==> o < y
    ensures forall x, y :: x in Orders(Gen(v, o).0.children[0]) && y in Orders(Gen(v, o).0.children[1])
              ==> x < y
  {
    GenStep(v, o);
    var k1 := CallCount(v - 1);
    GenOrders(v - 1, o + 1);
    GenOrders(v - 2, o + 1 + k1);
    var left := Orders(Gen(v, o).0.children[0]);
    var right := Orders(Gen(v, o).0.children[1]);
    assert left == Iota(o + 1, k1);
    assert right == Iota(o + 1 + k1, CallCount(v - 2));
    forall x | x in left ensures o + 1 <= x < o + 1 + k1 { }
    forall y | y in right ensures o + 1 + k1 <= y { }
  }

  /** At any node `generate` builds, each child is stamped after the
      parent, and every stamp on the left is below every stamp on the
      right. */
  lemma GeneratedNodeOrdering(m: Node)
    requires m == Gen(m.value, m.order).0
    ensures forall j :: 0 <= j < |m.children| ==> m.order < m.children[j].order
    ensures |m.children| == 2 ==>
              forall x, y :: x in Orders(m.children[0]) && y in Orders(m.children[1]) ==> x < y
  {
    GenStep(m.value, m.order);
    if m.value >= 2 {
      BranchStampsOrdered(m.value, m.order);
      assert Orders(m.children[0])[0] == m.children[0].order;
      assert Orders(m.children[1])[0] == m.children[1].order;
    }
  }

  /** A node's stamp is taken before either child is built, and the left
      subtree is stamped in full before the right one starts: at every node,
      each child is stamped after its parent, and every stamp on the left is
      below every stamp on the right. */
  lemma ConstructionOrder(n: int)
    ensures forall m :: m in Nodes(GenerateFibTree(n)) ==>
              forall j :: 0 <= j < |m.children| ==> m.order < m.children[j].order
    ensures forall m :: m in Nodes(GenerateFibTree(n)) && |m.children| == 2 ==>
              forall x, y :: x in Orders(m.children[0]) && y in Orders(m.children[1]) ==> x < y
  {
    SubtreesAreGenerated(n, 0);
    forall m | m in Nodes(GenerateFibTree(n))
      ensures forall j :: 0 <= j < |m.children| ==> m.order < m.children[j].order
      ensures |m.children| == 2 ==>
              forall x, y :: x in Orders(m.children[0]) && y in Orders(m.children[1]) ==> x < y
    {
      GeneratedNodeOrdering(m);
    }
  }

  /** The stamps of the tree are exactly `0 .. CallCount(n) - 1`, each used by
      one node only. */
  lemma OrdersExactRange(n: int)
    ensures forall x :: x in Orders(GenerateFibTree(n)) <==> 0 <= x < CallCount(n)
    ensures forall i, j :: 0 <= i < j < |Nodes(GenerateFibTree(n))| ==>
              Nodes(GenerateFibTree(n))[i].order != Nodes(GenerateFibTree(n))[j].order
  {
    var os := Orders(GenerateFibTree(n));
    forall x | 0 <= x < CallCount(n)
      ensures x in os
    {
      assert os[x] == x;
    }
  }

  /** For a non-negative argument every value in the tree lies between 0 and
      the argument, and each child's value is its parent's minus 1 or 2. */
  lemma {:induction false} ValuesInRange(n: int, c: int)
    requires n >= 0
    ensures forall m :: m in Nodes(Gen(n, c).0) ==> 0 <= m.value <= n
    ensures forall m :: m in Nodes(Gen(n, c).0) ==>
              forall j :: 0 <= j < |m.children| ==>
                m.children[j].value == m.value - 1 || m.children[j].value == m.value - 2
    decreases n
  {
    var t := Gen(n, c).0;
    GenStep(n, c);
    if n >= 2 {
      var c1 := Gen(n - 1, c + 1).1;
      ValuesInRange(n - 1, c + 1);
      ValuesInRange(n - 2, c1);
      NodesOfBinary(t);
    } else {
      assert Nodes(t) == [t];
    }
  }

  /** Starting the counter `d` further along stamps the same shape with
      every stamp moved by `d`, and leaves the counter `d` further along. */
  lemma {:induction false} GenShift(n: int, c: int, d: int)
    ensures Gen(n, c + d) == (Shift(Gen(n, c).0, d), Gen(n, c).1 + d)
    decreases if n <= 1 then 0 else n
  {
    if n >= 2 {
      var mid := Gen(n - 1, c + 1).1;
      GenShift(n - 1, c + 1, d);
      GenShift(n - 2, mid, d);
      GenShiftStep(n, c, d);
    } else {
      GenShiftLeaf(n, c, d);
    }
  }

  /** The base case of `GenShift`: a leaf shifts by moving its stamp. */
  lemma GenShiftLeaf(n: int, c: int, d: int)
    requires n <= 1
    ensures Gen(n, c + d) == (Shift(Gen(n, c).0, d), Gen(n, c).1 + d)
  {
    assert Shift(Gen(n, c).0, d) == Node(n, ShiftAll([], d), c + d);
  }

  /** The inductive step of `GenShift`: once both calls `generate(n)`
      makes are known to shift, so does `generate(n)` itself. */
  lemma GenShiftStep(n: int, c: int, d: int)
    requires n >= 2
    requires Gen(n - 1, c + 1 + d) == (Shift(Gen(n - 1, c + 1).0, d), Gen(n - 1, c + 1).1 + d)
    requires Gen(n - 2, Gen(n - 1, c + 1).1 + d)
             == (Shift(Gen(n - 2, Gen(n - 1, c + 1).1).0, d), Gen(n - 2, Gen(n - 1, c + 1).1).1 + d)
    ensures Gen(n, c + d) == (Shift(Gen(n, c).0, d), Gen(n, c).1 + d)
  {
    var left := Gen(n - 1, c + 1);
    var right := Gen(n - 2, left.1);
    assert Gen(n, c) == (Node(n, [left.0, right.0], c), right.1);
    assert Gen(n, c + d) == (Node(n, [Shift(left.0, d), Shift(right.0, d)], c + d), right.1 + d);
    ShiftPair(left.0, right.0, d);
  }

  lemma ShiftPair(a: Node, b: Node, d: int)
    ensures ShiftAll([a, b], d) == [Shift(a, d), Shift(b, d)]
  {
    var cs := [a, b];
    assert cs[1..][0] == b && cs[1..][1..] == [];
    assert ShiftAll(cs[1..], d) == [Shift(b, d)] + ShiftAll([], d);
  }

  /** The children of the built tree are the trees built for `n - 1` and
      `n - 2` on their own, up to a shift of their stamps: 1 for the left
      one, and 1 plus the size of the left subtree for the right one. */
  lemma ChildrenAreSmallerTrees(n: int)
    requires n >= 2
    ensures GenerateFibTree(n).children
            == [Shift(GenerateFibTree(n - 1), 1),
                Shift(GenerateFibTree(n - 2), 1 + CallCount(n - 1))]
  {
    GenShift(n - 1, 0, 1);
    GenShift(n - 2, 0, 1 + CallCount(n - 1));
  }

  /** Because each call starts its own counter at 0, the result depends on
      `n` alone, whatever was built before. A counter left over from an
      earlier build, reading `c`, would instead stamp the same shape moved
      by `c`, and would give the same tree only if `c` were 0. */
  lemma FreshCounter(n: int, c: int)
    ensures Gen(n, c).0 == Shift(GenerateFibTree(n), c)
    ensures Gen(n, c).0 == GenerateFibTree(n) <==> c == 0
  {
    GenShift(n, 0, c);
  }

  /** The built tree has one link per non-root node, and the targets of
      its links, read in order, carry the stamps `1 .. CallCount(n) - 1`. */
  lemma BuiltLinkTargets(n: int)
    ensures |Links(GenerateFibTree(n))| == CallCount(n) - 1
    ensures OrdersOf(Targets(Links(GenerateFibTree(n)))) == Iota(1, CallCount(n) - 1)
  {
    LinkTargetStamps(GenerateFibTree(n), CallCount(n));
  }

  lemma LinkTargetStamps(t: Node, k: nat)
    requires Orders(t) == Iota(0, k)
    ensures |Links(t)| == k - 1
    ensures OrdersOf(Targets(Links(t))) == Iota(1, k - 1)
  {
    LinkTargetsAreNonRootNodes(t);
    var ns := Nodes(t);
    var os := OrdersOf(ns[1..]);
    assert |ns| == k;
    forall i | 0 <= i < k - 1
      ensures os[i] == 1 + i
    {
      assert os[i] == ns[i + 1].order == Orders(t)[i + 1];
    }
  }

  /** Every link of the built tree leads from a node of the tree to one of
      its own children, and so from a lower stamp to a higher one. */
  lemma BuiltLinksOrdered(n: int)
    ensures var t := GenerateFibTree(n); var ls := Links(t);
              forall k :: 0 <= k < |ls| ==>
                && ls[k].source in Nodes(t)
                && ls[k].target in ls[k].source.children
                && ls[k].source.order < ls[k].target.order
  {
    var t := GenerateFibTree(n);
    LinksAreParentChildEdges(t);
    ConstructionOrder(n);
    forall k | 0 <= k < |Links(t)|
      ensures Links(t)[k].source.order < Links(t)[k].target.order
    {
      var l := Links(t)[k];
      var j :| 0 <= j < |l.source.children| && l.source.children[j] == l.target;
    }
  }
}

=== FILE: fib_node.dfy ===
/** The `FibNode` record that `generateFibTree` builds, and the ways the
    rendering layer reads a tree of them: every node in pre-order, every
    parent-to-child link, and the `order` stamps along both. */
module FibNode {

  /** One call of the naive Fibonacci recursion: the argument it was called
      with, the calls it made (in call order), and the construction stamp
      the shared counter gave it. */
  datatype Node = Node(value: int, children: seq<Node>, order: int)

  /** A parent-to-child edge, as the hierarchy layout reports it. */
  datatype Link = Link(source: Node, target: Node)

  /** Every subtree of `t` in pre-order: `t` itself, then the subtrees of
      each child, left to right. */
  function Nodes(t: Node): (r: seq<Node>)
    decreases t
    ensures |r| >= 1 && r[0] == t
  {
    [t] + NodesOf(t.children)
  }

  /** The pre-order subtrees of a forest, one tree after the other. */
  function NodesOf(cs: seq<Node>): seq<Node>
    decreases cs
  {
    if |cs| == 0 then [] else Nodes(cs[0]) + NodesOf(cs[1..])
  }

  /** The `order` stamps of a list of nodes, position by position. */
  function OrdersOf(ns: seq<Node>): (r: seq<int>)
    ensures |r| == |ns|
    ensures forall i :: 0 <= i < |ns| ==> r[i] == ns[i].order
  {
    seq(|ns|, i requires 0 <= i < |ns| => ns[i].order)
  }

  /** The `order` stamps of a tree, read in pre-order. */
  function Orders(t: Node): seq<int>
  {
    OrdersOf(Nodes(t))
  }

  /** Every parent-to-child link of `t`: each link from a parent to a child
      comes right before the links inside that child's subtree. */
  function Links(t: Node): (r: seq<Link>)
    decreases t
    ensures |r| == |Nodes(t)| - 1
  {
    LinksFrom(t, t.children)
  }

  /** The links from `p` to each node of `cs`, each followed by the links
      inside that node's subtree. */
  function LinksFrom(p: Node, cs: seq<Node>): (r: seq<Link>)
    decreases cs
    ensures |r| == |NodesOf(cs)|
  {
    if |cs| == 0 then []
    else [Link(p, cs[0])] + Links(cs[0]) + LinksFrom(p, cs[1..])
  }

  /** The target end of each link. */
  function Targets(ls: seq<Link>): (r: seq<Node>)
    ensures |r| == |ls|
    ensures forall k :: 0 <= k < |ls| ==> r[k] == ls[k].target
  {
    seq(|ls|, k requires 0 <= k < |ls| => ls[k].target)
  }

  /** `t` with every `order` stamp moved by `d`: the tree a counter that
      started `d` further along would have stamped. */
  function Shift(t: Node, d: int): Node
    decreases t
  {
    Node(t.value, ShiftAll(t.children, d), t.order + d)
  }

  function ShiftAll(cs: seq<Node>, d: int): seq<Node>
    decreases cs
  {
    if |cs| == 0 then [] else [Shift(cs[0], d)] + ShiftAll(cs[1..], d)
  }

  /** A node with two children lists itself, then the left subtree, then
      the right subtree. */
  lemma {:induction false} NodesOfBinary(t: Node)
    requires |t.children| == 2
    ensures Nodes(t) == [t] + Nodes(t.children[0]) + Nodes(t.children[1])
  {
    var cs := t.children;
    assert cs[1..][1..] == [];
    calc {
      Nodes(t);
      [t] + NodesOf(cs);
      [t] + (Nodes(cs[0]) + NodesOf(cs[1..]));
      [t] + (Nodes(cs[0]) + (Nodes(cs[1..][0]) + NodesOf(cs[1..][1..])));
      { assert cs[1..][0] == cs[1]; }
      [t] + Nodes(cs[0]) + Nodes(cs[1]);
    }
  }

  /** Reading stamps commutes with concatenation. */
  lemma OrdersOfConcat(a: seq<Node>, b: seq<Node>)
    ensures OrdersOf(a + b) == OrdersOf(a) + OrdersOf(b)
  {
  }

  /** The link targets are exactly the non-root nodes, in pre-order: every
      node but the root is the target of one link, and of only one. */
  lemma {:induction false} LinkTargetsAreNonRootNodes(t: Node)
    ensures Targets(Links(t)) == Nodes(t)[1..]
    decreases t, 1
  {
    LinkTargetsFrom(t, t.children);
  }

  lemma {:induction false} LinkTargetsFrom(p: Node, cs: seq<Node>)
    ensures Targets(LinksFrom(p, cs)) == NodesOf(cs)
    decreases cs, 0
  {
    if |cs| > 0 {
      var head := [Link(p, cs[0])];
      var inner := Links(cs[0]);
      var rest := LinksFrom(p, cs[1..]);
      LinkTargetsAreNonRootNodes(cs[0]);
      LinkTargetsFrom(p, cs[1..]);
      assert LinksFrom(p, cs) == head + inner + rest;
      TargetsConcat(head + inner, rest);
      TargetsConcat(head, inner);
      assert Targets(head) == [cs[0]];
      assert Nodes(cs[0]) == [cs[0]] + Nodes(cs[0])[1..];
      assert NodesOf(cs) == Nodes(cs[0]) + NodesOf(cs[1..]);
    }
  }

  lemma TargetsConcat(a: seq<Link>, b: seq<Link>)
    ensures Targets(a + b) == Targets(a) + Targets(b)
  {
  }

  /** Every link leads from a node of the tree to one of that node's own
      children. */
  lemma {:induction false} LinksAreParentChildEdges(t: Node)
    ensures forall k :: 0 <= k < |Links(t)| ==>
              Links(t)[k].source in Nodes(t) && Links(t)[k].target in Links(t)[k].source.children
    decreases t, 1
  {
    LinkEdgesFrom(t, t.children);
  }

  lemma {:induction false} LinkEdgesFrom(p: Node, cs: seq<Node>)
    requires forall x :: x in cs ==> x in p.children
    ensures forall k :: 0 <= k < |LinksFrom(p, cs)| ==>
              (LinksFrom(p, cs)[k].source == p || LinksFrom(p, cs)[k].source in NodesOf(cs))
              && LinksFrom(p, cs)[k].target in LinksFrom(p, cs)[k].source.children
    decreases cs, 0
  {
    if |cs| > 0 {
      var inner := Links(cs[0]);
      var rest := LinksFrom(p, cs[1..]);
      LinksAreParentChildEdges(cs[0]);
      LinkEdgesFrom(p, cs[1..]);
      var ls := LinksFrom(p, cs);
      assert ls == [Link(p, cs[0])] + inner + rest;
      assert NodesOf(cs) == Nodes(cs[0]) + NodesOf(cs[1..]);
      forall k | 0 <= k < |ls|
        ensures (ls[k].source == p || ls[k].source in NodesOf(cs))
                && ls[k].target in ls[k].source.children
      {
        if k == 0 {
        } else if k < 1 + |inner| {
          assert ls[k] == inner[k - 1];
        } else {
          assert ls[k] == rest[k - 1 - |inner|];
        }
      }
    }
  }
}

=== FILE: render.dfy ===
/** What the three components derive from a node's `order` stamp when they
    draw the tree: the identity keys of nodes and links, the reveal delays
    of the staggered animation, and the fill that tells leaves from internal
    nodes. Delays are kept in whole milliseconds: `order * 0.5` seconds and
    `order * 500` milliseconds are the same delay. */
module Render {
  import opened FibNode
  import opened FibGen
  import opened Decimal

  /** The two fills a node circle can get. */
  datatype Fill =
    | Teal    // "#4db6ac": the node has children
    | Purple  // "#7e57c2": the node is a leaf

  /** A node's key, `node-${order}`: the prefix, then the stamp in a form
      that reads back. */
  function NodeKey(t: Node): (k: string)
    ensures |k| > 5 && k[..5] == "node-"
    ensures Parse(k[5..]) == t.order
  {
    "node-" + Show(t.order)
  }

  /** A link's key in the first component, `${source.order}-${target.order}`:
      the source's stamp, the separator, then the target's stamp, each in a
      form that reads back. */
  function PathKey(l: Link): (k: string)
    ensures |Show(l.source.order)| < |k|
    ensures Parse(k[..|Show(l.source.order)|]) == l.source.order
    ensures k[|Show(l.source.order)|] == '-'
    ensures Parse(k[|Show(l.source.order)| + 1..]) == l.target.order
  {
    var a, b := Show(l.source.order), Show(l.target.order);
    var k := a + "-" + b;
    assert k[..|a|] == a && k[|a| + 1..] == b;
    k
  }

  /** A link's key in the second component, `link-${source.order}-${target.order}`:
      the first component's key behind a `link-` prefix. */
  function MotionPathKey(l: Link): (k: string)
    ensures |k| > 5 && k[..5] == "link-"
    ensures k[5..] == PathKey(l)
    ensures var m := 5 + |Show(l.source.order)|;
              && m < |k|
              && Parse(k[5..m]) == l.source.order
              && k[m] == '-'
              && Parse(k[m + 1..]) == l.target.order
  {
    var a, b := Show(l.source.order), Show(l.target.order);
    JoinedParts("link-", a, b);
    "link-" + a + "-" + b
  }

  /** Where the pieces of `pre + a + "-" + b` sit in the joined string. */
  lemma JoinedParts(pre: string, a: string, b: string)
    ensures var k := pre + a + "-" + b;
              && k[..|pre|] == pre
              && k[|pre|..] == a + "-" + b
              && k[|pre|..|pre| + |a|] == a
              && k[|pre| + |a|] == '-'
              && k[|pre| + |a| + 1..] == b
  {
  }

  function Max(a: int, b: int): int
  {
    if a >= b then a else b
  }

  /** A node's reveal delay in milliseconds: its group, its circle and its
      label all wait `order * 500` ms (`order * 0.5` s). */
  function NodeDelayMs(t: Node): (d: int)
    ensures d % 500 == 0 && d / 500 == t.order
    ensures t.order >= 0 ==> d >= 0
  {
    t.order * 500
  }

  /** A link's reveal delay in milliseconds: the later of its two ends'
      stamps, times 500. */
  function LinkDelayMs(l: Link): (d: int)
    ensures d >= NodeDelayMs(l.source) && d >= NodeDelayMs(l.target)
    ensures d == NodeDelayMs(l.source) || d == NodeDelayMs(l.target)
  {
    Max(l.source.order, l.target.order) * 500
  }

  /** A node is drawn teal when it has children and purple otherwise. */
  function NodeFill(t: Node): (f: Fill)
    ensures f == Teal <==> t.children != []
    ensures f == Purple <==> t.children == []
  {
    if |t.children| > 0 then Teal else Purple
  }

  /** Node keys name stamps one to one. */
  lemma NodeKeyInjective(a: Node, b: Node)
    ensures NodeKey(a) == NodeKey(b) <==> a.order == b.order
  {
    ShowInjective(a.order, b.order);
    assert NodeKey(a)[5..] == Show(a.order);
    assert NodeKey(b)[5..] == Show(b.order);
  }

  /** Both link key forms name the pair of stamps one to one. */
  lemma PathKeyInjective(l: Link, m: Link)
    ensures PathKey(l) == PathKey(m) <==>
              l.source.order == m.source.order && l.target.order == m.target.order
    ensures MotionPathKey(l) == MotionPathKey(m) <==> PathKey(l) == PathKey(m)
  {
    JoinInjective(l.source.order, l.target.order, m.source.order, m.target.order);
    assert MotionPathKey(l)[5..] == PathKey(l);
    assert MotionPathKey(m)[5..] == PathKey(m);
  }

  /** In a built tree the node built `i`-th, in pre-order, carries stamp
      `i`. */
  lemma StampIsConstructionIndex(n: int)
    ensures var ns := Nodes(GenerateFibTree(n));
              forall i :: 0 <= i < |ns| ==> ns[i].order == i
  {
    var ns := Nodes(GenerateFibTree(n));
    forall i | 0 <= i < |ns|
      ensures ns[i].order == i
    {
      assert Orders(GenerateFibTree(n))[i] == ns[i].order;
    }
  }

  /** In a built tree no two nodes share a key. */
  lemma NodeKeysUnique(n: int)
    ensures var ns := Nodes(GenerateFibTree(n));
              forall i, j :: 0 <= i < j < |ns| ==> NodeKey(ns[i]) != NodeKey(ns[j])
  {
    var ns := Nodes(GenerateFibTree(n));
    StampIsConstructionIndex(n);
    forall i, j | 0 <= i < j < |ns|
      ensures NodeKey(ns[i]) != NodeKey(ns[j])
    {
      NodeKeyInjective(ns[i], ns[j]);
    }
  }

  /** In a built tree the node built `i`-th waits `500 * i` ms, so the
      delays grow strictly in construction order. */
  lemma NodeDelaysIncrease(n: int)
    ensures var ns := Nodes(GenerateFibTree(n));
              forall i :: 0 <= i < |ns| ==> NodeDelayMs(ns[i]) == 500 * i
    ensures var ns := Nodes(GenerateFibTree(n));
              forall i, j :: 0 <= i < j < |ns| ==> NodeDelayMs(ns[i]) < NodeDelayMs(ns[j])
  {
    StampIsConstructionIndex(n);
  }

  /** In a built tree every link waits exactly as long as its target node,
      since the target is always stamped after the source. */
  lemma LinkDelayIsTargetDelay(n: int)
    ensures var ls := Links(GenerateFibTree(n));
              forall k :: 0 <= k < |ls| ==> LinkDelayMs(ls[k]) == NodeDelayMs(ls[k].target)
  {
    BuiltLinksOrdered(n);
  }

  /** In a built tree no two links share a key, in either form, since no
      two links share a target. */
  lemma LinkKeysUnique(n: int)
    ensures var ls := Links(GenerateFibTree(n));
              forall k, k' :: 0 <= k < k' < |ls| ==>
                PathKey(ls[k]) != PathKey(ls[k']) && MotionPathKey(ls[k]) != MotionPathKey(ls[k'])
  {
    var ls := Links(GenerateFibTree(n));
    BuiltLinkTargets(n);
    forall k | 0 <= k < |ls|
      ensures ls[k].target.order == k + 1
    {
      assert OrdersOf(Targets(ls))[k] == ls[k].target.order;
    }
    forall k, k' | 0 <= k < k' < |ls|
      ensures PathKey(ls[k]) != PathKey(ls[k']) && MotionPathKey(ls[k]) != MotionPathKey(ls[k'])
    {
      DistinctTargetsDistinctKeys(ls[k], ls[k']);
    }
  }

  /** Links into differently stamped targets get different keys, in both
      forms. */
  lemma DistinctTargetsDistinctKeys(l: Link, m: Link)
    requires l.target.order != m.target.order
    ensures PathKey(l) != PathKey(m) && MotionPathKey(l) != MotionPathKey(m)
  {
    PathKeyInjective(l, m);
  }

  /** In a built tree a node is drawn teal exactly when its value is at
      least 2, and purple exactly when it is a base case. */
  lemma FillMarksInternalNodes(n: int)
    ensures forall m :: m in Nodes(GenerateFibTree(n)) ==>
              (NodeFill(m) == Teal <==> m.value >= 2) && (NodeFill(m) == Purple <==> m.value <= 1)
  {
    StrictlyBinary(n);
  }
}
